=== FILE: README.md ===
# Mask annotation editor, modelled in Dafny

MaskLabelTOol is a small desktop tool for painting segmentation masks. The user
picks a directory. The tool lists its image files (`.jpg`, `.jpeg`, `.bmp`,
`.png`, in any letter case) in sorted order and shows one of them. The mask for
an image is a 512 x 512 bitmap stored at `<dir>/mask/<stem>.bmp`, and the user
paints it with a brush or an eraser.

This project models the logic of that tool:

- **Navigation.** The image list, the current index, the next/previous/jump
  steps, and the rule that enables the buttons (`navigation.dfy`).
- **Tool sizes.** The brush and eraser diameters, their bounds, and the wheel
  gesture that changes them by one (`tools.dfy`).
- **Canvas.** Where the mask sits inside the 700 x 600 canvas, the
  press/move/release stroke session, and the dot each repaint puts on the mask
  (`canvas.dfy`).
- **Mask resolution.** `show_label_img`: it creates the mask directory, stops
  when a directory sits at the mask path, drops a mask of the wrong size,
  writes a blank one, and rewrites the image and/or mask for the three rotate
  requests (`annotation.dfy`).
- **The window.** All of the above as one state machine driven by the window's
  inputs (`editor.dfy`).

The filesystem is a map from paths to entries. A path is a sequence of
components. A file records only what decoding it as a picture gives: its size,
or nothing when it does not decode. Python's `pathlib` name/stem/suffix rules
and its path ordering are in `paths.dfy`, `ordering.dfy` and `sorting.dfy`.

The model follows the code literally, with one exception: the rectangle of
the finding below. For example, the "previous" button is enabled when
`index != 0`, not when `index > 0`. The two agree on every reachable state, as
`Navigation.ButtonsMatchBounds` shows.

## Model

| member | source | states |
|---|---|---|
| Paths.LastDot | main.py:384-385 | the position of the last `.` in a name (or -1), with no `.` after it — the rfind pathlib's suffix rule uses |
| Paths.StemSuffixSplit | main.py:385 | a name is its stem followed by its suffix; the suffix is empty or a dot followed by dot-free characters; the stem is empty only for the empty name |
| Paths.StemOfJoined | main.py:529 | a non-empty stem joined with ".bmp" has that stem and that suffix back |
| Paths.PathLessStrictTotal | main.py:384 | the order `sorted` uses on paths (component-wise, then code point) is irreflexive, transitive and total |
| Sorting.Insert | main.py:384 | inserting a new path into a sorted list keeps it sorted and adds exactly that path |
| Sorting.Sort | main.py:384 | the sorted list is strictly increasing and a permutation of the input |
| Sorting.SortedUnique | main.py:384 | two sorted lists with the same elements are equal, so the sorted result is unique |
| Files.MakeDirs | main.py:530 | mkdir with parents and exist_ok: on success the path is a directory, old entries are kept and only directories along the path are added; a failure means some prefix of the path is a file |
| Files.MakeDirsFailsOnFile | main.py:530 | on a well-formed tree, a file at any prefix of the path makes mkdir fail (the converse) |
| Files.MakeDirsKeepsTree | main.py:530 | the created directories keep the tree well formed |
| Files.RemoveFile | main.py:544 | os.remove deletes exactly that entry and keeps the tree well formed |
| Files.WriteFile | main.py:549 | a save makes the path a file decoding to the saved picture and touches nothing else |
| Navigation.PyIndex | main.py:526 | Python list indexing: defined exactly for -len <= i < len, with negative indices counting from the end |
| Navigation.ImageFiles | main.py:384-385 | the filter keeps exactly the listed entries that are files with an image extension, without repeats |
| Navigation.SelectDirectory | main.py:380-401 | a new list and index 0 exactly when the directory exists and holds an image file; the list is sorted and holds exactly those files; otherwise nothing changes |
| Navigation.ListingOrderIrrelevant | main.py:383-385 | the result does not depend on the order iterdir yields the entries |
| Navigation.NextImage | main.py:403-408 | the index goes up by one, the list is kept, and the step asks for the image to be shown again (carried out by `Editor.Navigate`) |
| Navigation.PrevImage | main.py:410-415 | the index goes down by one, the list is kept, and the step asks for the image to be shown again (carried out by `Editor.Navigate`) |
| Navigation.PageJump | main.py:438-446 | a one-based page inside the list selects image page-1; any other page leaves the state as it was; either way the step asks for the image to be shown again (carried out by `Editor.Navigate`) |
| Navigation.JumpBoundaries | main.py:441-442 | pages 1 and count reach the first and last image; 0 and count+1 are ignored |
| Navigation.ButtonsMatchBounds | main.py:480-519 | on a valid state, next is enabled exactly when index+1 is in range, prev exactly when index-1 is, and the four file buttons exactly when the list is not empty |
| Navigation.UpdateButtons | main.py:480-519 | every button is disabled when the list is empty or the index lookup raises (the exception is logged); otherwise the four file buttons are enabled, prev exactly when the index is not 0 and next exactly when it is not the last position |
| Navigation.EmptyListDisablesAll | main.py:482-492 | an empty list leaves every button disabled |
| Navigation.ApplyPreservesValid | main.py:380-446 | every deliverable navigation event keeps the list sorted and the index inside a non-empty list |
| Navigation.RunPreservesValid | main.py:380-446 | any run of deliverable events keeps that invariant |
| Tools.Nudge | main.py:448-468 | one wheel notch moves a size by at most one, in the wheel's direction, and only while it stays within its bounds |
| Tools.Wheel | main.py:448-468 | Ctrl alone nudges the brush size and Alt alone the eraser size by one notch within their bounds; any other combination changes no size; colours are untouched; sizes in range stay in range |
| Tools.WheelsKeepRange | main.py:448-468 | any number of wheel notches keeps both sizes within 1..50 and 5..50 |
| Tools.NudgeUndone | main.py:450-457 | one notch up and one down at an interior size is undone |
| Tools.SetBrushSize | main.py:55-56 | the brush size is recorded, everything else kept; the range holds afterwards exactly when the typed size is in 1..50 |
| Tools.SetEraserSize | main.py:71-72 | the eraser size is recorded, everything else kept; the range holds afterwards exactly when the typed size is in 5..50 |
| Tools.SetBrushColor | main.py:51-53 | the brush colour is recorded, sizes and eraser colour kept |
| Canvas.CentredRectAsWritten | main.py:175-178 | the rectangle as written: its corner is ((w-512)//2, (h-512)//2), rounding down, and its inclusive corners make it 513 x 513 |
| Canvas.CentredRect | main.py:175-178 | the intended target rectangle is 512 x 512, centred with at most one pixel of slack, and has the same corner as the rectangle as written |
| Canvas.CentredRectMapsOntoMask | main.py:161-168 | with that rectangle, a canvas point is inside it exactly when pos - topLeft lies on the mask, and adding the corner back gives the point |
| Canvas.AsWrittenRectOvershoots | main.py:175-178 | the rectangle as written is 513 x 513, and its bottom-right pixel maps to mask coordinate (512, 512), off the mask |
| Canvas.FixedLabelCentre | main.py:195-196 | the 700 x 600 canvas places the mask corner at (94, 44) |
| Canvas.ModeFor | main.py:111-117 | eraser mode exactly when Alt is the only modifier held |
| Canvas.Press | main.py:110-121 | a left press opens a stroke at the mouse position in the mode the modifiers pick; other buttons change nothing; the stroke fields stay consistent |
| Canvas.Move | main.py:123-135 | without a stroke nothing changes; during one the mouse position and the mode are updated |
| Canvas.Release | main.py:137-150 | every release saves the mask to the current mask path; only a left release ending a stroke closes it and reloads the image |
| Canvas.PressReleaseRoundTrip | main.py:110-150 | a left press and a left release return an idle canvas to where it was, with one save and one reload |
| Canvas.Resize | main.py:175-178 | the rectangle's corner is ((w-512)//2, (h-512)//2), the same as the rectangle as written; it is the corrected, mask-sized rectangle, whose far corner is one pixel nearer than the one written; nothing else changes |
| Canvas.LoadContent | main.py:87-92 | the picture (null or not) and the mask path are recorded; nothing else changes |
| Canvas.Paint | main.py:153-168 | one dot exactly when a picture is loaded and a stroke has a non-null mouse position; the dot plus the corner is that position; the eraser's colour and size in eraser mode, the brush's otherwise |
| Canvas.StampExample | main.py:161-168 | a mouse position of (100, 100) over a corner at (50, 25) stamps the mask at (50, 75) |
| Annotation.MaskPath | main.py:529 | the mask of an image is named after the image's stem with the `.bmp` extension and sits in the `mask` directory beside the image |
| Annotation.MaskPathShape | main.py:529 | the mask sits directly in `<parent>/mask`, one level below the image's directory, and is never the image |
| Annotation.MaskNameKeepsStem | main.py:529 | the mask's name keeps the image's stem, ends in ".bmp", and is itself an image name |
| Annotation.SameMaskIff | main.py:529 | two images share a mask exactly when they share a directory and a stem |
| Annotation.SharedMaskExample | main.py:529 | "a.png" and "a.jpg" in one directory both use "mask/a.bmp" |
| Annotation.ShowLabelImg | main.py:522-526 | an empty list does nothing; an index Python rejects raises with nothing written; a shown image is the list entry at the index and its mask path is that image's |
| Annotation.TurnedTimes | main.py:551-563 | an even number of quarter turns keeps the picture size, an odd number swaps the sides, and a null picture stays null |
| Annotation.PrepareMask | main.py:541-549 | afterwards the mask path holds a 512 x 512 file whichever branch is taken; it is saved exactly on a clear or when the old mask was missing, undecodable or the wrong size |
| Annotation.RotationLogContents | main.py:551-569 | the rotate flags save the image exactly when it decoded and an image turn was asked for, and the mask exactly when a mask turn was asked for |
| Annotation.SaveImage | main.py:555 | saving a decoded picture rewrites the image file with it; a null picture saves nothing |
| Annotation.SaveMask | main.py:557 | saving the mask buffer leaves a 512 x 512 file at the mask path |
| Annotation.SaveValidMaskKeepsEntry | main.py:569 | saving a turned valid mask over itself leaves its entry as it was |
| Annotation.RotateBoth | main.py:551-557 | do_roate turns the picture, saves the image (if it decoded) and then the mask |
| Annotation.RotateImageOnly | main.py:559-563 | do_roate_img turns the picture and saves the image if it decoded |
| Annotation.RotateMaskOnly | main.py:565-569 | do_roate_mask saves the mask; its entry is unchanged |
| Annotation.ApplyRotations | main.py:551-569 | the rotate branches keep a valid mask, keep the picture null or not, only append to the save log, and leave the image file holding the turned picture when it was turned |
| Annotation.ApplyRotationsIsSequential | main.py:551-569 | the closed form equals the three branches run one after another |
| Annotation.ResolveMask | main.py:532-571 | it is fatal exactly when a directory sits at the mask path, and then nothing is written; otherwise the shown picture is turned once per image rotation, the saves are the blank save followed by the rotation saves, and the files change only at the mask (a 512 x 512 file) and, when turned, the image |
| Annotation.ShowImage | main.py:529-530 | it raises exactly when mkdir of the mask directory fails, and then nothing changes; otherwise it resolves the mask in the created directory |
| Annotation.MakeMaskDirKeepsFiles | main.py:530 | creating the mask directory leaves the image's and the mask's entries as they were |
| Annotation.ShowLogContents | main.py:541-569 | the blank save plus the rotation saves name the image and the mask exactly as the flags and the old mask decide, and nothing else |
| Annotation.ResolveSaves | main.py:532-571 | with no directory at the mask path the image is shown, and the files saved are exactly those the flags and the old mask decide |
| Annotation.WhichFilesAreSaved | main.py:529-571 | when mkdir succeeds and no directory sits at the mask path the image is shown, and the showing saves the image exactly when it decoded and a turn of it was asked for, the mask exactly when it was missing, wrong-sized, cleared or turned, and nothing else |
| Annotation.FatalWritesNothing | main.py:530-539 | on a well-formed tree the showing is fatal exactly when a directory sits at the mask path, and then it stops before anything is created or written |
| Annotation.RaisedIff | main.py:530 | on a well-formed tree the showing raises exactly when some prefix of the mask directory is a file |
| Annotation.ReloadIsIdempotent | main.py:541-549 | after a successful showing, showing the same image again without flags saves nothing and changes nothing |
| Editor.Start | main.py:369-372 | the window starts with no images, every button disabled, and sizes in range |
| Editor.Show | main.py:522-571 | a shown image is handed to the canvas with its mask path, the stroke fields untouched; an empty list, an exception or a directory at the mask path leave the canvas as it was, and the last ends the program; list, buttons and tools are untouched |
| Editor.Navigate | main.py:380-446 | after a navigation step the buttons always match the new list and index (the finally clause); a step that asks for it shows the image at the new index: the files are the showing's, the canvas is loaded with the shown picture and mask path (or kept when nothing is shown), and a directory at the mask path ends the program; without a reload nothing else changes |
| Editor.SaveBuffer | main.py:138-139 | saving the mask buffer where a file may go leaves a 512 x 512 file there and nothing else changed |
| Editor.Release | main.py:137-150 | a release writes the mask buffer back to the current mask file; a left release ending a stroke then closes it and shows the current image again, loading the canvas with the shown picture; any other release changes only the files |
| Editor.Handle | main.py:110-571 | tool inputs change only the tools, mouse and resize inputs only the canvas; only navigation inputs move the list or index; only navigation, file buttons and releases touch the files |
| Editor.StartSatisfiesInv | main.py:369-372 | the start state satisfies the window invariant |
| Editor.HandleKeepsInv | main.py:380-571 | every deliverable input keeps the invariant: the list sorted, the index inside a non-empty list, the buttons matching it, the tree well formed, and the stroke fields consistent |
| Editor.HandleAllKeepsInv | main.py:380-571 | any run of deliverable inputs keeps the invariant |
| Editor.ShowNeverMissesIndex | main.py:526 | under the invariant the list lookup never raises, so showing is the showing of the current image |
| Editor.ReleaseSavesMask | main.py:137-141 | a release without a stroke writes the 512 x 512 buffer back to the current mask file and changes nothing else in the canvas |

## Left out

- Qt widget construction, layouts, labels, the status text, cursors and their pixmaps, and `move_to_center`: these are presentation only.
- The blank mask's fill colour (main.py:548) is not modelled, as pixel contents are not.
- Pixel contents: compositing (`join_pixmap`), pen rasterisation, the colour mask set in `update_label_img`, and the actual 90° pixel transform. A picture is its width and height, and a stamp is a centre point with a colour and a diameter.
- Annotation.TurnedTimes: four quarter turns restoring the pixels is not stated, only the sizes, because pixels are not modelled.
- Dialogs: the directory dialog, the colour dialog and the fatal-error message box. The chosen directory (with its listing), the picked colour and the typed sizes are inputs. A cancelled colour dialog (an invalid colour) is not modelled.
- Editor.Handle: `sys.exit(-1)` is modelled as the window no longer running. What the Qt event loop does with an exception escaping a slot is not modelled: the window keeps the state reached before the exception.
- Live keyboard-modifier polling: the modifiers are a parameter of the mouse and wheel inputs.
- Tools.Wheel: the size is read back from the text field with `int(...)`. An empty field, which raises `ValueError`, is not modelled: the model keeps the sizes as integers.
- Editor.Handle: typing in the page field is taken as an already parsed integer. Text the validator rejects never reaches `on_page_jump`.
- Editor.CanDeliver: a page jump is deliverable with any integer page. In the program the page field is hidden (main.py:305) and the lines that would show it are commented out (main.py:496-497), so `on_page_jump` never fires; its validator would also reject pages outside 1..count (main.py:498). Allowing every page over-approximates what can happen, and `Navigation.PageJump` leaves the state as it was for out-of-range pages anyway.
- Canvas.Resize: the label holds the corrected 512 x 512 rectangle (and the initial label a 512 x 512 one at the origin), not the 513 x 513 `QRect` that main.py:178 and main.py:28 build. Only the rectangle's corner is used when painting, and the two rectangles share it; the as-written rectangle is `Canvas.CentredRectAsWritten`, described under Findings.
- Canvas.Release: saving before any image was shown calls `save(None)`. This is modelled as no save at all.
- Paths.Upper: only ASCII letters are upper-cased; other Unicode case mappings are not modelled.
- Files.MakeDirs: permissions, symbolic links and races with other processes are not modelled.
- Logging (`logging.exception`) is left out; the exception it records is modelled as leaving every button disabled.

## Findings

| source | as written | input that shows it | evidently intended | confidence | as-written member | corrected member |
|---|---|---|---|---|---|---|
| main.py:175-178 (also main.py:28) | `QRect(QPoint(x, y), QPoint(512 + x, 512 + y))`: QRect's corners are inclusive, so the target rectangle is 513 x 513 | any canvas size, e.g. 700 x 600: corner (94, 44); pixel (606, 556) is inside the rectangle and maps to mask point (512, 512), one past the last row and column | a 512 x 512 rectangle, `QRect(QPoint(x, y), QSize(512, 512))`, so a point is in the rectangle exactly when it maps onto the mask | not executed | Canvas.AsWrittenRectOvershoots | Canvas.CentredRectMapsOntoMask |

=== FILE: annotation.dfy ===
/**
 The annotation store: where the mask of an image lives, and what showing an
 image does to the filesystem (show_label_img): create the mask directory,
 refuse a directory sitting at the mask path, drop a mask of the wrong size,
 write a blank mask when there is none or a clear is asked for, and rewrite
 the image and/or mask file for the three rotate requests. Pixel contents are
 not modelled: a rotation is a rewrite of the file, and a quarter turn swaps
 the picture's width and height.
 */
module Annotation {
  import opened Base
  import opened Paths
  import opened Files
  import Navigation

  const MaskDirName: string := "mask"
  const MaskExtension: string := ".bmp"

  /** <parent>/mask */
  function MaskDir(image: Path): Path
  {
    Parent(image) + [MaskDirName]
  }

  /** <parent>/mask/<stem>.bmp */
  function MaskPath(image: Path): (r: Path)
    ensures Name(r) == Stem(Name(image)) + MaskExtension
    ensures Name(Parent(r)) == MaskDirName && Parent(Parent(r)) == Parent(image)
    ensures |r| == |Parent(image)| + 2
  {
    MaskDir(image) + [Stem(Name(image)) + MaskExtension]
  }

  /** The mask sits directly in the mask directory, one level below the image's
      directory, so it is never the image itself and never one of the
      directories created for it. */
  lemma MaskPathShape(image: Path)
    ensures Parent(MaskPath(image)) == MaskDir(image)
    ensures |MaskPath(image)| == |MaskDir(image)| + 1 == |Parent(image)| + 2
    ensures MaskPath(image) != image
  {
    assert MaskPath(image)[..|MaskPath(image)| - 1] == MaskDir(image);
  }

  /** The mask's file name keeps the image's stem and has the ".bmp" suffix, so
      it is itself a name the directory scan accepts. */
  lemma MaskNameKeepsStem(image: Path)
    requires Name(image) != ""
    ensures Stem(Name(MaskPath(image))) == Stem(Name(image))
    ensures Suffix(Name(MaskPath(image))) == MaskExtension
    ensures IsImageName(Name(MaskPath(image)))
  {
    StemSuffixSplit(Name(image));
    StemOfJoined(Stem(Name(image)), MaskExtension);
    assert Upper(MaskExtension) == ".BMP";
  }

  /** Two images share a mask exactly when they sit in the same directory and
      have the same stem: "a.png" and "a.jpg" write the same "mask/a.bmp". */
  lemma SameMaskIff(a: Path, b: Path)
    ensures MaskPath(a) == MaskPath(b) <==> Parent(a) == Parent(b) && Stem(Name(a)) == Stem(Name(b))
  {
    if MaskPath(a) == MaskPath(b) {
      var ma, mb := MaskPath(a), MaskPath(b);
      assert ma[..|Parent(a)|] == Parent(a);
      assert mb[..|Parent(b)|] == Parent(b);
      var na, nb := Stem(Name(a)) + MaskExtension, Stem(Name(b)) + MaskExtension;
      assert ma[|ma| - 1] == na && mb[|mb| - 1] == nb;
      assert na[..|na| - 4] == Stem(Name(a));
      assert nb[..|nb| - 4] == Stem(Name(b));
    }
  }

  lemma SharedMaskExample()
    ensures MaskPath(["photos", "a.png"]) == MaskPath(["photos", "a.jpg"]) == ["photos", "mask", "a.bmp"]
  {
    StemOfJoined("a", ".png");
    StemOfJoined("a", ".jpg");
    assert "a.png" == "a" + ".png" && "a.jpg" == "a" + ".jpg";
    assert Name(["photos", "a.png"]) == "a.png" && Name(["photos", "a.jpg"]) == "a.jpg";
    assert Parent(["photos", "a.png"]) == Parent(["photos", "a.jpg"]) == ["photos"];
    assert "a" + MaskExtension == "a.bmp";
  }

  /** The show_label_img keyword flags. */
  datatype Request = Request(rotate: bool, rotateImage: bool, rotateMask: bool, clear: bool)

  const Reload: Request := Request(false, false, false, false)

  datatype Status =
    | NoImages                                             // empty list: returns at once
    | Raised                                               // IndexError, or mkdir blocked by a file
    | Fatal(maskPath: Path)                                // a directory sits at the mask path
    | Shown(image: Path, picture: Option<Dims>, maskPath: Path)  // handed to the canvas

  /** The status, the filesystem afterwards, and the paths saved, in order. */
  datatype Outcome = Outcome(status: Status, fs: FileSystem, saved: seq<Path>)

  /** A quarter turn swaps width and height; a null picture stays null. */
  function Turned(d: Option<Dims>): Option<Dims>
  {
    if d.Some? then Some(Dims(d.value.height, d.value.width)) else None
  }

  /** The in-memory picture, the filesystem and the save log while the
      rotate flags are processed. */
  datatype Work = Work(fs: FileSystem, picture: Option<Dims>, saved: seq<Path>)

  function TurnImage(w: Work): Work
  {
    w.(picture := Turned(w.picture))
  }

  /** img.save(img_path): a null picture saves nothing. */
  function SaveImage(w: Work, image: Path): (r: Work)
    requires w.picture.Some? ==> IsFile(w.fs, image)
    ensures r.picture == w.picture
    ensures w.picture.Some? ==> r.saved == w.saved + [image] && Decode(r.fs, image) == w.picture
    ensures w.picture.None? ==> r == w
    ensures forall q :: q != image ==> (q in r.fs <==> q in w.fs) && (q in r.fs ==> r.fs[q] == w.fs[q])
    ensures IsFile(w.fs, image) ==> IsFile(r.fs, image)
    ensures WellFormed(w.fs) ==> WellFormed(r.fs)
  {
    if w.picture.Some? then w.(fs := w.fs[image := File(w.picture)], saved := w.saved + [image])
    else w
  }

  /** img_mask.save(img_mask_path) of the 512 x 512 mask buffer. */
  function SaveMask(w: Work, mask: Path): (r: Work)
    requires IsFile(w.fs, mask)
    ensures r.picture == w.picture && r.saved == w.saved + [mask]
    ensures Decode(r.fs, mask) == Some(MaskDims)
    ensures forall q :: q != mask ==> (q in r.fs <==> q in w.fs) && (q in r.fs ==> r.fs[q] == w.fs[q])
    ensures WellFormed(w.fs) ==> WellFormed(r.fs)
  {
    w.(fs := w.fs[mask := File(Some(MaskDims))], saved := w.saved + [mask])
  }

  /** show_label_img: does nothing without images, otherwise shows the image at
      the current index (a Python index, so negative values count from the end). */
  function ShowLabelImg(fs: FileSystem, nav: Navigation.Nav, req: Request): (o: Outcome)
    ensures |nav.files| == 0 ==> o == Outcome(NoImages, fs, [])
    ensures Navigation.PyIndex(nav.files, nav.index).None? ==> o.status.NoImages? || o.status.Raised?
    ensures o.status.NoImages? || o.status.Raised? ==> o.fs == fs && o.saved == []
    ensures o.status.Shown? ==> && Navigation.PyIndex(nav.files, nav.index) == Some(o.status.image)
                                && o.status.maskPath == MaskPath(o.status.image)
    ensures WellFormed(fs) ==> WellFormed(o.fs)
  {
    if |nav.files| == 0 then Outcome(NoImages, fs, [])
    else match Navigation.PyIndex(nav.files, nav.index)
      case None => Outcome(Raised, fs, [])
      case Some(image) => ShowImage(fs, image, req)
  }

  /** The number of quarter turns a request applies to the picture. */
  function Turns(req: Request): nat
  {
    (if req.rotate then 1 else 0) + (if req.rotateImage then 1 else 0)
  }

  /** `n` quarter turns: an even number restores the picture, an odd one
      swaps its sides; a null picture stays null. */
  function TurnedTimes(d: Option<Dims>, n: nat): (r: Option<Dims>)
    ensures r.Some? <==> d.Some?
    ensures n % 2 == 0 ==> r == d
    ensures n % 2 == 1 ==> r == Turned(d)
  {
    if n == 0 then d else Turned(TurnedTimes(d, n - 1))
  }

  /** Makes sure a valid mask file is at `mask`: one of the wrong size (or that
      does not decode) is removed, and a blank one is written when none is left
      or a clear is asked for. Whichever branch runs, the files end up as if a
      blank mask had been written. */
  function PrepareMask(fs: FileSystem, mask: Path, picture: Option<Dims>, clear: bool): (w: Work)
    requires |mask| > 0 && !IsDir(fs, mask)
    ensures w.fs == fs[mask := File(Some(MaskDims))] && w.picture == picture
    ensures w.saved == [] || w.saved == [mask]
    ensures w.saved == [mask] <==> clear || Decode(fs, mask) != Some(MaskDims)
  {
    if mask in fs && Decode(fs, mask) != Some(MaskDims) then
      var fs' := RemoveFile(fs, mask);
      assert (fs - {mask})[mask := File(Some(MaskDims))] == fs[mask := File(Some(MaskDims))];
      Work(WriteFile(fs', mask, Some(MaskDims)), picture, [mask])
    else if mask !in fs || clear then
      Work(WriteFile(fs, mask, Some(MaskDims)), picture, [mask])
    else
      assert fs[mask := File(Some(MaskDims))] == fs;
      Work(fs, picture, [])
  }


  /** Writing a file where a file or nothing was, under an existing directory,
      keeps the tree well formed. */
  lemma WriteKeepsTree(fs: FileSystem, p: Path, e: Entry)
    requires |p| > 0 && !IsDir(fs, p)
    ensures WellFormed(fs) && (p in fs || IsDir(fs, Parent(p))) ==> WellFormed(fs[p := e])
  {
  }

  /** The paths the rotate flags save, in order: do_roate saves the image (when
      it decoded) and the mask, do_roate_img the image, do_roate_mask the mask. */
  function RotationLog(req: Request, hasPicture: bool, image: Path, mask: Path): seq<Path>
  {
    (if req.rotate then (if hasPicture then [image] else []) + [mask] else [])
    + (if req.rotateImage && hasPicture then [image] else [])
    + (if req.rotateMask then [mask] else [])
  }

  /** The image is saved exactly when it decoded and an image rotation was
      asked for; the mask exactly when a mask rotation was asked for. */
  lemma RotationLogContents(req: Request, hasPicture: bool, image: Path, mask: Path)
    requires image != mask
    ensures image in RotationLog(req, hasPicture, image, mask) <==> (req.rotate || req.rotateImage) && hasPicture
    ensures mask in RotationLog(req, hasPicture, image, mask) <==> req.rotate || req.rotateMask
    ensures forall p :: p in RotationLog(req, hasPicture, image, mask) ==> p == image || p == mask
  {
  }

  /** Rewriting a valid mask with the 512 x 512 buffer leaves the entry as it was. */
  lemma SaveValidMaskKeepsEntry(w: Work, mask: Path)
    requires IsFile(w.fs, mask) && Decode(w.fs, mask) == Some(MaskDims)
    ensures SaveMask(w, mask).fs == w.fs
  {
    assert w.fs[mask] == File(Some(MaskDims));
  }

  /** What the rotation steps need: a valid mask file, distinct from the image,
      and the image file still there when its picture decoded. */
  predicate RotationReady(w: Work, image: Path, mask: Path)
  {
    IsFile(w.fs, mask) && Decode(w.fs, mask) == Some(MaskDims) && mask != image
    && (w.picture.Some? ==> IsFile(w.fs, image))
  }

  /** do_roate when `on`: turn the picture and save it, then turn and save the
      mask (a turned 512 x 512 mask is still 512 x 512). */
  function RotateBoth(w: Work, image: Path, mask: Path, on: bool): (r: Work)
    requires RotationReady(w, image, mask)
    ensures RotationReady(r, image, mask)
    ensures r.picture == if on then Turned(w.picture) else w.picture
    ensures r.saved == w.saved + if on then (if w.picture.Some? then [image] else []) + [mask] else []
    ensures r.fs == if on && w.picture.Some? then w.fs[image := File(r.picture)] else w.fs
  {
    if !on then w
    else
      var w' := SaveImage(TurnImage(w), image);
      SaveValidMaskKeepsEntry(w', mask);
      SaveMask(w', mask)
  }

  /** do_roate_img when `on`: turn the picture and save it. */
  function RotateImageOnly(w: Work, image: Path, mask: Path, on: bool): (r: Work)
    requires RotationReady(w, image, mask)
    ensures RotationReady(r, image, mask)
    ensures r.picture == if on then Turned(w.picture) else w.picture
    ensures r.saved == w.saved + if on && w.picture.Some? then [image] else []
    ensures r.fs == if on && w.picture.Some? then w.fs[image := File(r.picture)] else w.fs
  {
    if !on then w else SaveImage(TurnImage(w), image)
  }

  /** do_roate_mask when `on`: turn the mask and save it; the entry stays as it was. */
  function RotateMaskOnly(w: Work, image: Path, mask: Path, on: bool): (r: Work)
    requires RotationReady(w, image, mask)
    ensures r.picture == w.picture && r.fs == w.fs
    ensures r.saved == w.saved + if on then [mask] else []
  {
    if !on then w
    else
      SaveValidMaskKeepsEntry(w, mask);
      SaveMask(w, mask)
  }

  /** The do_roate, do_roate_img and do_roate_mask branches, in that order:
      the picture turned once per image rotation, the image file rewritten
      with it when it decoded, and the saves logged. */
  function ApplyRotations(w: Work, image: Path, mask: Path, req: Request): (r: Work)
    requires RotationReady(w, image, mask)
    ensures RotationReady(r, image, mask)
    ensures r.picture.Some? <==> w.picture.Some?
    ensures w.saved <= r.saved
    ensures Turns(req) > 0 && w.picture.Some? ==> Decode(r.fs, image) == r.picture
  {
    var turned := TurnedTimes(w.picture, Turns(req));
    var fs := if Turns(req) > 0 && w.picture.Some? then w.fs[image := File(turned)] else w.fs;
    Work(fs, turned, w.saved + RotationLog(req, w.picture.Some?, image, mask))
  }

  /** The closed form is what the three branches compute one after another. */
  lemma ApplyRotationsIsSequential(w: Work, image: Path, mask: Path, req: Request)
    requires RotationReady(w, image, mask)
    ensures var w1 := RotateBoth(w, image, mask, req.rotate);
            var w2 := RotateImageOnly(w1, image, mask, req.rotateImage);
            ApplyRotations(w, image, mask, req) == RotateMaskOnly(w2, image, mask, req.rotateMask)
  {
    var w1 := RotateBoth(w, image, mask, req.rotate);
    var w2 := RotateImageOnly(w1, image, mask, req.rotateImage);
    var w3 := RotateMaskOnly(w2, image, mask, req.rotateMask);
    var r := ApplyRotations(w, image, mask, req);
    var both := if req.rotate then (if w.picture.Some? then [image] else []) + [mask] else [];
    var imageOnly := if req.rotateImage && w.picture.Some? then [image] else [];
    var maskOnly := if req.rotateMask then [mask] else [];
    AppendFour(w.saved, both, imageOnly, maskOnly);
    assert w3.picture == r.picture by {
      if req.rotate && req.rotateImage {
        assert TurnedTimes(w.picture, 1) == Turned(w.picture);
      }
    }
    assert w3.fs == r.fs by {
      if w.picture.Some? && req.rotate && req.rotateImage {
        assert TurnedTimes(w.picture, 1) == Turned(w.picture);
        assert w.fs[image := File(w1.picture)][image := File(w2.picture)] == w.fs[image := File(w2.picture)];
      }
    }
  }

  /** Appending a three-part log is appending its parts one after another. */
  lemma AppendFour<T>(a: seq<T>, b: seq<T>, c: seq<T>, d: seq<T>)
    ensures a + (b + c + d) == a + b + c + d
  {
  }

  /** The mask save that makes sure a valid mask exists: on a clear request,
      or when there was no mask of the right size. */
  function BlankLog(fs: FileSystem, mask: Path, clear: bool): seq<Path>
  {
    if clear || Decode(fs, mask) != Some(MaskDims) then [mask] else []
  }

  /** show_label_img for one image once the mask directory exists: a directory
      at the mask path is fatal and nothing is written; otherwise a valid mask
      is ensured and the rotate flags are applied. */
  function ResolveMask(fs: FileSystem, image: Path, picture: Option<Dims>, req: Request): (o: Outcome)
    requires picture.Some? ==> IsFile(fs, image)
    requires IsDir(fs, MaskDir(image))
    ensures o.status.Fatal? <==> MaskPath(image) in fs && fs[MaskPath(image)].Dir?
    ensures o.status.Fatal? ==> o == Outcome(Fatal(MaskPath(image)), fs, [])
    ensures !o.status.Fatal? ==> o.status == Shown(image, TurnedTimes(picture, Turns(req)), MaskPath(image))
    ensures o.status.Shown? ==> && Decode(o.fs, MaskPath(image)) == Some(MaskDims)
                                && IsDir(o.fs, MaskDir(image))
                                && o.saved == BlankLog(fs, MaskPath(image), req.clear)
                                              + RotationLog(req, picture.Some?, image, MaskPath(image))
    ensures o.status.Shown? ==>
              o.fs == (var withMask := fs[MaskPath(image) := File(Some(MaskDims))];
                       if Turns(req) > 0 && picture.Some? then withMask[image := File(o.status.picture)] else withMask)
    ensures WellFormed(fs) ==> WellFormed(o.fs)
  {
    var mask := MaskPath(image);
    MaskPathShape(image);
    if mask in fs && fs[mask].Dir? then Outcome(Fatal(mask), fs, [])
    else
      var w0 := PrepareMask(fs, mask, picture, req.clear);
      var w := ApplyRotations(w0, image, mask, req);
      WriteKeepsTree(fs, mask, File(Some(MaskDims)));
      if picture.Some? then
        WriteKeepsTree(w0.fs, image, File(w.picture));
        Outcome(Shown(image, w.picture, mask), w.fs, w.saved)
      else
        Outcome(Shown(image, w.picture, mask), w.fs, w.saved)
  }

  /** The mask step of show_label_img for one image: create the mask directory
      (an exception when a file is in the way, with nothing changed), then
      resolve the mask. */
  function ShowImage(fs: FileSystem, image: Path, req: Request): (o: Outcome)
    ensures o.status.Raised? <==> MakeDirs(fs, MaskDir(image)).None?
    ensures o.status.Raised? ==> o.fs == fs && o.saved == []
    ensures !o.status.Raised? ==> o == ResolveMask(MakeDirs(fs, MaskDir(image)).value, image, Decode(fs, image), req)
    ensures !o.status.NoImages?
    ensures o.status.Shown? ==> o.status.image == image && o.status.maskPath == MaskPath(image)
    ensures WellFormed(fs) ==> WellFormed(o.fs)
  {
    match MakeDirs(fs, MaskDir(image))
    case None => Outcome(Raised, fs, [])
    case Some(fs1) =>
      MakeDirsKeepsTree(fs, MaskDir(image));
      ResolveMask(fs1, image, Decode(fs, image), req)
  }

  /** Creating the mask directory only adds directories that are prefixes of
      it, so the image's and the mask's entries are as they were. */
  lemma MakeMaskDirKeepsFiles(fs: FileSystem, image: Path)
    requires MakeDirs(fs, MaskDir(image)).Some?
    ensures var fs1 := MakeDirs(fs, MaskDir(image)).value;
            && Decode(fs1, image) == Decode(fs, image)
            && Decode(fs1, MaskPath(image)) == Decode(fs, MaskPath(image))
            && (MaskPath(image) in fs1 <==> MaskPath(image) in fs)
  {
    var fs1 := MakeDirs(fs, MaskDir(image)).value;
    MaskPathShape(image);
    if image in fs1 && image !in fs {
      assert fs1[image] == Dir;
    }
  }

  /** Which files one showing saves: the image exactly when it decoded and a
      turn of it was asked for; the mask exactly when it was missing, of the
      wrong size, to be cleared or to be turned; nothing else. */
  lemma WhichFilesAreSaved(fs: FileSystem, image: Path, req: Request)
    requires MakeDirs(fs, MaskDir(image)).Some?
    requires !(MaskPath(image) in fs && fs[MaskPath(image)].Dir?)
    ensures var o := ShowImage(fs, image, req);
            && o.status.Shown?
            && (image in o.saved <==> (req.rotate || req.rotateImage) && Decode(fs, image).Some?)
            && (MaskPath(image) in o.saved <==>
                  req.clear || req.rotate || req.rotateMask || Decode(fs, MaskPath(image)) != Some(MaskDims))
            && (forall p :: p in o.saved ==> p == image || p == MaskPath(image))
  {
    var fs1 := MakeDirs(fs, MaskDir(image)).value;
    MakeMaskDirKeepsFiles(fs, image);
    ResolveSaves(fs1, image, Decode(fs, image), req);
  }

  /** The same, once the mask directory exists. */
  lemma ResolveSaves(fs: FileSystem, image: Path, picture: Option<Dims>, req: Request)
    requires picture.Some? ==> IsFile(fs, image)
    requires IsDir(fs, MaskDir(image))
    requires !(MaskPath(image) in fs && fs[MaskPath(image)].Dir?)
    ensures var o := ResolveMask(fs, image, picture, req);
            && o.status.Shown?
            && (image in o.saved <==> (req.rotate || req.rotateImage) && picture.Some?)
            && (MaskPath(image) in o.saved <==>
                  req.clear || req.rotate || req.rotateMask || Decode(fs, MaskPath(image)) != Some(MaskDims))
            && (forall p :: p in o.saved ==> p == image || p == MaskPath(image))
  {
    var o := ResolveMask(fs, image, picture, req);
    assert o.saved == BlankLog(fs, MaskPath(image), req.clear) + RotationLog(req, picture.Some?, image, MaskPath(image));
    ShowLogContents(fs, image, picture.Some?, req);
  }

  /** What the blank save followed by the rotation saves names. */
  lemma ShowLogContents(fs: FileSystem, image: Path, hasPicture: bool, req: Request)
    ensures var saved := BlankLog(fs, MaskPath(image), req.clear) + RotationLog(req, hasPicture, image, MaskPath(image));
            && (image in saved <==> (req.rotate || req.rotateImage) && hasPicture)
            && (MaskPath(image) in saved <==>
                  req.clear || req.rotate || req.rotateMask || Decode(fs, MaskPath(image)) != Some(MaskDims))
            && (forall p :: p in saved ==> p == image || p == MaskPath(image))
  {
    var mask := MaskPath(image);
    MaskPathShape(image);
    var blank := BlankLog(fs, mask, req.clear);
    var log := RotationLog(req, hasPicture, image, mask);
    RotationLogContents(req, hasPicture, image, mask);
    assert forall p :: p in blank + log <==> p in blank || p in log;
  }

  /** Under a well-formed tree the showing is fatal exactly when a directory
      sits at the mask path, and then it stops before anything is created or
      written. */
  lemma FatalWritesNothing(fs: FileSystem, image: Path, req: Request)
    requires WellFormed(fs)
    ensures ShowImage(fs, image, req).status.Fatal? <==> MaskPath(image) in fs && fs[MaskPath(image)].Dir?
    ensures MaskPath(image) in fs && fs[MaskPath(image)].Dir? ==>
              ShowImage(fs, image, req) == Outcome(Fatal(MaskPath(image)), fs, [])
  {
    var mask := MaskPath(image);
    MaskPathShape(image);
    if MakeDirs(fs, MaskDir(image)).Some? {
      MakeMaskDirKeepsFiles(fs, image);
    }
    if mask in fs && fs[mask].Dir? {
      assert IsDir(fs, Parent(mask));
      assert MakeDirs(fs, MaskDir(image)) == Some(fs);
    }
  }

  /** Under a well-formed tree showing raises exactly when some existing
      prefix of the mask directory is a file. */
  lemma RaisedIff(fs: FileSystem, image: Path, req: Request)
    requires WellFormed(fs)
    ensures ShowImage(fs, image, req).status.Raised? <==>
            exists k :: 0 < k <= |MaskDir(image)| && IsFile(fs, MaskDir(image)[..k])
  {
    if k :| 0 < k <= |MaskDir(image)| && IsFile(fs, MaskDir(image)[..k]) {
      MakeDirsFailsOnFile(fs, MaskDir(image), k);
    }
  }

  /** Showing the same image again without flags after a successful showing
      saves nothing and changes nothing. */
  lemma ReloadIsIdempotent(fs: FileSystem, image: Path, req: Request)
    requires MakeDirs(fs, MaskDir(image)).Some?
    requires !(MaskPath(image) in fs && fs[MaskPath(image)].Dir?)
    ensures var o := ShowImage(fs, image, req);
            var o2 := ShowImage(o.fs, image, Reload);
            o.status.Shown? && o2.status.Shown? && o2.saved == [] && o2.fs == o.fs
  {
    var o := ShowImage(fs, image, req);
    var mask := MaskPath(image);
    MakeMaskDirKeepsFiles(fs, image);
    assert o.status.Shown?;
    assert IsDir(o.fs, MaskDir(image));
    assert MakeDirs(o.fs, MaskDir(image)) == Some(o.fs);
    assert Decode(o.fs, mask) == Some(MaskDims);
  }
}

=== FILE: base.dfy ===
/** Value types shared by every part of the mask-annotation editor model. */
module Base {

  datatype Option<+T> = None | Some(value: T)

  /** A point in integer widget coordinates, like a QPoint. */
  datatype Point = Point(x: int, y: int)

  function Minus(a: Point, b: Point): Point
  {
    Point(a.x - b.x, a.y - b.y)
  }

  function Plus(a: Point, b: Point): Point
  {
    Point(a.x + b.x, a.y + b.y)
  }

  /** An RGB colour, like a QColor built from three channel values. */
  datatype Color = Color(red: int, green: int, blue: int)

  /** Pixel size of a decoded picture. */
  datatype Dims = Dims(width: nat, height: nat)

  /** Side of the square mask buffer (mask_img_size). */
  const MaskSide: nat := 512

  const MaskDims: Dims := Dims(MaskSide, MaskSide)
}

=== FILE: canvas.dfy ===
/**
 The canvas label: where the 512x512 mask is drawn inside the widget, the
 press/move/release stroke session, and the stamp each repaint puts on the
 mask. Pixels themselves are not modelled; a stamp is its centre point in mask
 coordinates, its colour and its pen diameter.
 */
module Canvas {
  import opened Base
  import opened Paths
  import opened Tools

  /** A QRect given by its corners; both corners belong to the rectangle. */
  datatype Rect = Rect(left: int, top: int, right: int, bottom: int)

  function TopLeft(r: Rect): Point
  {
    Point(r.left, r.top)
  }

  function Width(r: Rect): int
  {
    r.right - r.left + 1
  }

  function Height(r: Rect): int
  {
    r.bottom - r.top + 1
  }

  predicate Contains(r: Rect, p: Point)
  {
    r.left <= p.x <= r.right && r.top <= p.y <= r.bottom
  }

  /** A mask-buffer coordinate that lies on the mask. */
  predicate OnMask(q: Point)
  {
    0 <= q.x < MaskSide && 0 <= q.y < MaskSide
  }

  /** Widget coordinates to mask coordinates: subtract the rectangle's corner. */
  function ToMask(p: Point, r: Rect): Point
  {
    Minus(p, TopLeft(r))
  }

  /** resizeEvent as written: the corners (x, y) and (512 + x, 512 + y) of a
      QRect span 513 pixels, one more than the mask. Python's // by 2 is
      Dafny's / by 2, both rounding towards negative infinity. */
  function CentredRectAsWritten(w: int, h: int): (r: Rect)
    ensures 2 * r.left <= w - MaskSide <= 2 * r.left + 1 && 2 * r.top <= h - MaskSide <= 2 * r.top + 1
    ensures Width(r) == MaskSide + 1 && Height(r) == MaskSide + 1
  {
    var x := (w - MaskSide) / 2;
    var y := (h - MaskSide) / 2;
    Rect(x, y, MaskSide + x, MaskSide + y)
  }

  /** resizeEvent as intended: the mask-sized rectangle centred in a w x h
      widget, any odd pixel of slack going to the right and bottom margins. */
  function CentredRect(w: int, h: int): (r: Rect)
    ensures Width(r) == MaskSide && Height(r) == MaskSide
    ensures r.left <= w - 1 - r.right <= r.left + 1
    ensures r.top <= h - 1 - r.bottom <= r.top + 1
    ensures TopLeft(r) == TopLeft(CentredRectAsWritten(w, h))
  {
    var x := (w - MaskSide) / 2;
    var y := (h - MaskSide) / 2;
    Rect(x, y, x + MaskSide - 1, y + MaskSide - 1)
  }

  /** With the intended rectangle a widget point is inside it exactly when it
      maps onto the mask, and mapping back recovers the point. */
  lemma CentredRectMapsOntoMask(w: int, h: int, p: Point)
    ensures Contains(CentredRect(w, h), p) <==> OnMask(ToMask(p, CentredRect(w, h)))
    ensures Plus(ToMask(p, CentredRect(w, h)), TopLeft(CentredRect(w, h))) == p
  {
  }

  /** With the rectangle as written, its bottom-right pixel is inside the drawn
      area but maps one past the mask's last row and column. */
  lemma AsWrittenRectOvershoots(w: int, h: int)
    ensures var r := CentredRectAsWritten(w, h);
            && Width(r) == MaskSide + 1 && Height(r) == MaskSide + 1
            && Contains(r, Point(r.right, r.bottom))
            && ToMask(Point(r.right, r.bottom), r) == Point(MaskSide, MaskSide)
            && !OnMask(ToMask(Point(r.right, r.bottom), r))
  {
  }

  /** The label of a 700 x 600 window centres the mask at (94, 44). */
  lemma FixedLabelCentre()
    ensures TopLeft(CentredRect(700, 600)) == Point(94, 44)
  {
  }

  datatype Tool = Brush | Eraser

  datatype MouseButton = LeftButton | RightButton | MiddleButton

  /** The label's state: target rectangle, whether a picture is loaded, the
      mask file path, and the stroke fields mouse_press_flag, mouse_pos and
      eraser_painting_model. */
  datatype Label = Label(rect: Rect, hasImage: bool, maskPath: Option<Path>,
                         pressed: bool, pos: Option<Point>, mode: Tool)

  const InitialLabel: Label := Label(Rect(0, 0, MaskSide - 1, MaskSide - 1), false, None, false, None, Brush)

  /** The three stroke fields always agree: a position is known exactly while
      the button is held, and the mode is back to brush when it is not. They
      therefore behave as one optional stroke session. */
  predicate SessionConsistent(l: Label)
  {
    (l.pressed <==> l.pos.Some?) && (!l.pressed ==> l.mode == Brush)
  }

  /** Alt held alone selects the eraser; anything else the brush. */
  function ModeFor(m: Modifiers): (t: Tool)
    ensures t == Eraser <==> OnlyAlt(m)
  {
    if OnlyAlt(m) then Eraser else Brush
  }

  /** mousePressEvent: a left press opens a stroke at the mouse position. */
  function Press(l: Label, b: MouseButton, at: Point, m: Modifiers): (r: Label)
    ensures b != LeftButton ==> r == l
    ensures b == LeftButton ==> r.pressed && r.pos == Some(at) && (r.mode == Eraser <==> OnlyAlt(m))
    ensures r.rect == l.rect && r.hasImage == l.hasImage && r.maskPath == l.maskPath
    ensures SessionConsistent(l) ==> SessionConsistent(r)
  {
    if b == LeftButton then l.(pressed := true, pos := Some(at), mode := ModeFor(m))
    else l
  }

  /** mouseMoveEvent: ignored without a stroke; otherwise the mouse position and the
      mode (re-read from the modifiers) are updated. */
  function Move(l: Label, at: Point, m: Modifiers): (r: Label)
    ensures !l.pressed ==> r == l
    ensures l.pressed ==> r.pressed && r.pos == Some(at) && (r.mode == Eraser <==> OnlyAlt(m))
    ensures r.rect == l.rect && r.hasImage == l.hasImage && r.maskPath == l.maskPath
    ensures SessionConsistent(l) ==> SessionConsistent(r)
  {
    if !l.pressed then l
    else l.(pos := Some(at), mode := ModeFor(m))
  }

  /** The result of a release: the new label, the path the mask buffer is saved
      to (none before any image was shown), and whether the image is reloaded. */
  datatype Released = Released(state: Label, save: Option<Path>, reload: bool)

  /** mouseReleaseEvent: the mask is saved on every release; only a left
      release that ends a stroke closes it and reloads the image. */
  function Release(l: Label, b: MouseButton): (r: Released)
    ensures r.save == l.maskPath
    ensures r.reload <==> l.pressed && b == LeftButton
    ensures r.reload ==> r.state == l.(pressed := false, pos := None, mode := Brush)
    ensures !r.reload ==> r.state == l
    ensures SessionConsistent(l) ==> SessionConsistent(r.state)
  {
    if l.pressed && b == LeftButton then Released(l.(pressed := false, pos := None, mode := Brush), l.maskPath, true)
    else Released(l, l.maskPath, false)
  }

  /** A left press followed by a left release brings an idle label back to
      exactly where it was, having asked for one save and one reload. */
  lemma PressReleaseRoundTrip(l: Label, at: Point, m: Modifiers)
    requires SessionConsistent(l) && !l.pressed
    ensures var r := Release(Press(l, LeftButton, at, m), LeftButton);
            r.state == l && r.reload && r.save == l.maskPath
  {
  }

  /** resizeEvent, with the corrected mask-sized rectangle: the same corner as
      the rectangle as written, and a far corner one pixel nearer. */
  function Resize(l: Label, w: int, h: int): (r: Label)
    ensures TopLeft(r.rect) == Point((w - MaskSide) / 2, (h - MaskSide) / 2)
    ensures Width(r.rect) == MaskSide && Height(r.rect) == MaskSide
    ensures TopLeft(r.rect) == TopLeft(CentredRectAsWritten(w, h))
    ensures Point(r.rect.right + 1, r.rect.bottom + 1) == Point(CentredRectAsWritten(w, h).right, CentredRectAsWritten(w, h).bottom)
    ensures r.(rect := l.rect) == l
  {
    l.(rect := CentredRect(w, h))
  }

  /** update_label_img: a new picture (null when it did not decode) and mask path. */
  function LoadContent(l: Label, hasImage: bool, maskPath: Path): (r: Label)
    ensures r.hasImage == hasImage && r.maskPath == Some(maskPath)
    ensures r.(hasImage := l.hasImage, maskPath := l.maskPath) == l
  {
    l.(hasImage := hasImage, maskPath := Some(maskPath))
  }

  /** One pen dot on the mask: centre in mask coordinates, colour, diameter. */
  datatype Stamp = Stamp(at: Point, color: Color, diameter: int)

  /** A QPoint is false in a boolean test when it is the null point (0, 0). */
  predicate Truthy(p: Point)
  {
    p != Point(0, 0)
  }

  /** paintEvent: with a picture loaded and a stroke at a (non-null) mouse
      position, one dot goes onto the mask at the mouse position minus the rectangle's
      top-left corner, in the eraser's colour and size in eraser mode and the
      brush's otherwise. */
  function Paint(l: Label, t: ToolState): (r: Option<Stamp>)
    ensures r.Some? <==> l.hasImage && l.pressed && l.pos.Some? && Truthy(l.pos.value)
    ensures r.Some? ==> Plus(r.value.at, TopLeft(l.rect)) == l.pos.value
    ensures r.Some? && l.mode == Eraser ==> r.value.color == t.eraserColor && r.value.diameter == t.eraserSize
    ensures r.Some? && l.mode == Brush ==> r.value.color == t.brushColor && r.value.diameter == t.brushSize
  {
    if l.hasImage && l.pressed && l.pos.Some? && Truthy(l.pos.value) then
      var at := ToMask(l.pos.value, l.rect);
      if l.mode == Eraser then Some(Stamp(at, t.eraserColor, t.eraserSize))
      else Some(Stamp(at, t.brushColor, t.brushSize))
    else None
  }

  /** A mouse position of (100, 100) over a rectangle whose corner is (50, 25) stamps
      the mask at (50, 75). */
  lemma StampExample(l: Label, t: ToolState)
    requires l.hasImage && l.pressed && l.pos == Some(Point(100, 100))
    requires TopLeft(l.rect) == Point(50, 25)
    ensures Paint(l, t).Some? && Paint(l, t).value.at == Point(50, 75)
  {
  }
}

=== FILE: editor.dfy ===
/**
 The main window as one state machine: the navigation controller, the button
 states, the filesystem, the tool configuration and the canvas label, driven
 by the window's inputs. Dialogs become parameters of the inputs (the chosen
 directory and its listing, the picked colour, the typed size) and the
 keyboard modifiers are passed with the mouse and wheel inputs.
 */
module Editor {
  import opened Base
  import opened Paths
  import opened Files
  import opened Tools
  import Navigation
  import Canvas
  import Annotation
  import Sorting

  datatype Window = Window(nav: Navigation.Nav, buttons: Navigation.Buttons, fs: FileSystem,
                           tools: ToolState, canvas: Canvas.Label, running: bool)

  /** After construction: no images, every button disabled, default tools. */
  function Start(fs: FileSystem): (s: Window)
    ensures s.buttons == Navigation.AllDisabled && |s.nav.files| == 0 && s.running
    ensures InRange(s.tools)
  {
    Window(Navigation.Initial, Navigation.UpdateButtons(Navigation.Initial), fs, Tools.Initial, Canvas.InitialLabel, true)
  }

  datatype Input =
    | ChooseDir(dir: Path, listing: seq<Path>)
    | ClickNext
    | ClickPrev
    | JumpTo(page: int)
    | ClickRotate
    | ClickRotateImage
    | ClickRotateMask
    | ClickClear
    | Scroll(modifiers: Modifiers, delta: int)
    | TypeBrushSize(size: int)
    | TypeEraserSize(size: int)
    | PickColor(color: Color)
    | MousePress(button: Canvas.MouseButton, at: Point, pressModifiers: Modifiers)
    | MouseMove(to: Point, moveModifiers: Modifiers)
    | MouseRelease(released: Canvas.MouseButton)
    | ResizeTo(width: int, height: int)

  /** What the window can deliver: nothing after the fatal exit, a click only
      on an enabled button (the arrow shortcuts click the buttons too), and a
      directory scan that lists the directory's children. */
  ghost predicate CanDeliver(s: Window, e: Input)
  {
    s.running &&
    match e
    case ChooseDir(dir, listing) => IsDir(s.fs, dir) ==> Navigation.IsListing(s.fs, dir, listing)
    case ClickNext => s.buttons.next
    case ClickPrev => s.buttons.prev
    case ClickRotate => s.buttons.rotate
    case ClickRotateImage => s.buttons.rotateImage
    case ClickRotateMask => s.buttons.rotateMask
    case ClickClear => s.buttons.clear
    case _ => true
  }

  /** show_label_img, with its outcome applied to the window: a shown image is
      handed to the label, a directory at the mask path ends the program. */
  function Show(s: Window, req: Annotation.Request): (r: Window)
    ensures r.nav == s.nav && r.buttons == s.buttons && r.tools == s.tools
    ensures r.running <==> s.running && !Annotation.ShowLabelImg(s.fs, s.nav, req).status.Fatal?
    ensures r.fs == Annotation.ShowLabelImg(s.fs, s.nav, req).fs
    ensures Annotation.ShowLabelImg(s.fs, s.nav, req).status.Shown? ==>
              r.canvas.hasImage == Annotation.ShowLabelImg(s.fs, s.nav, req).status.picture.Some?
              && r.canvas.maskPath == Some(Annotation.ShowLabelImg(s.fs, s.nav, req).status.maskPath)
    ensures !Annotation.ShowLabelImg(s.fs, s.nav, req).status.Shown? ==> r.canvas == s.canvas
    ensures Annotation.ShowLabelImg(s.fs, s.nav, req).status.Shown? ==>
              r.canvas == Canvas.LoadContent(s.canvas, Annotation.ShowLabelImg(s.fs, s.nav, req).status.picture.Some?,
                                             Annotation.ShowLabelImg(s.fs, s.nav, req).status.maskPath)
    ensures Canvas.SessionConsistent(s.canvas) ==> Canvas.SessionConsistent(r.canvas)
    ensures r.canvas.rect == s.canvas.rect
  {
    var o := Annotation.ShowLabelImg(s.fs, s.nav, req);
    match o.status
    case Shown(_, picture, mask) => s.(fs := o.fs, canvas := Canvas.LoadContent(s.canvas, picture.Some?, mask))
    case Fatal(_) => s.(fs := o.fs, running := false)
    case _ => s.(fs := o.fs)
  }

  /** A navigation step followed, when it asks for it, by a showing; the
      buttons are recomputed in every case (the finally clause). */
  function Navigate(s: Window, step: Navigation.Step): (r: Window)
    ensures r.nav == step.nav && r.buttons == Navigation.UpdateButtons(step.nav)
    ensures r.tools == s.tools && r.canvas.rect == s.canvas.rect
    ensures !step.reload ==> r.fs == s.fs && r.canvas == s.canvas && r.running == s.running
    ensures step.reload ==>
              var o := Annotation.ShowLabelImg(s.fs, step.nav, Annotation.Reload);
              && r.fs == o.fs
              && (r.running <==> s.running && !o.status.Fatal?)
              && (o.status.Shown? ==> r.canvas == Canvas.LoadContent(s.canvas, o.status.picture.Some?, o.status.maskPath))
              && (!o.status.Shown? ==> r.canvas == s.canvas)
  {
    var s1 := s.(nav := step.nav);
    var s2 := if step.reload then Show(s1, Annotation.Reload) else s1;
    s2.(buttons := Navigation.UpdateButtons(step.nav))
  }

  /** QPixmap.save of the 512 x 512 mask buffer: it fails, leaving the files as
      they are, unless the path names a file place in an existing directory. */
  function SaveBuffer(fs: FileSystem, p: Path): (r: FileSystem)
    ensures |p| > 0 && !IsDir(fs, p) && IsDir(fs, Parent(p)) ==> IsFile(r, p) && Decode(r, p) == Some(MaskDims)
    ensures forall q :: q != p ==> (q in r <==> q in fs) && (q in r ==> r[q] == fs[q])
    ensures WellFormed(fs) ==> WellFormed(r)
  {
    if |p| > 0 && !IsDir(fs, p) && IsDir(fs, Parent(p)) then WriteFile(fs, p, Some(MaskDims)) else fs
  }

  /** A mouse release: the mask buffer is written back to the current mask file,
      and a left release that ends a stroke closes it and shows the image again. */
  function Release(s: Window, b: Canvas.MouseButton): (r: Window)
    ensures r.nav == s.nav && r.buttons == s.buttons && r.tools == s.tools
    ensures !(s.canvas.pressed && b == Canvas.LeftButton) ==>
              r.fs == (if s.canvas.maskPath.Some? then SaveBuffer(s.fs, s.canvas.maskPath.value) else s.fs)
              && r.canvas == s.canvas && r.running == s.running
    ensures s.canvas.pressed && b == Canvas.LeftButton ==>
              var saved := if s.canvas.maskPath.Some? then SaveBuffer(s.fs, s.canvas.maskPath.value) else s.fs;
              var closed := s.canvas.(pressed := false, pos := None, mode := Canvas.Brush);
              var o := Annotation.ShowLabelImg(saved, s.nav, Annotation.Reload);
              && r.fs == o.fs
              && (r.running <==> s.running && !o.status.Fatal?)
              && (o.status.Shown? ==> r.canvas == Canvas.LoadContent(closed, o.status.picture.Some?, o.status.maskPath))
              && (!o.status.Shown? ==> r.canvas == closed)
    ensures Canvas.SessionConsistent(s.canvas) ==> Canvas.SessionConsistent(r.canvas)
  {
    var rel := Canvas.Release(s.canvas, b);
    var fs' := if rel.save.Some? then SaveBuffer(s.fs, rel.save.value) else s.fs;
    var s1 := s.(fs := fs', canvas := rel.state);
    if rel.reload then Show(s1, Annotation.Reload) else s1
  }

  /** The window's reaction to one input. */
  function Handle(s: Window, e: Input): (r: Window)
    requires CanDeliver(s, e)
    ensures e.Scroll? || e.TypeBrushSize? || e.TypeEraserSize? || e.PickColor? ==>
              r.nav == s.nav && r.buttons == s.buttons && r.fs == s.fs && r.canvas == s.canvas && r.running
    ensures e.MousePress? || e.MouseMove? || e.ResizeTo? ==>
              r.nav == s.nav && r.buttons == s.buttons && r.fs == s.fs && r.tools == s.tools && r.running
    ensures e.Scroll? ==> r.tools == Wheel(s.tools, e.modifiers, e.delta)
    ensures r.tools != s.tools ==> e.Scroll? || e.TypeBrushSize? || e.TypeEraserSize? || e.PickColor?
    ensures r.nav != s.nav ==> e.ChooseDir? || e.ClickNext? || e.ClickPrev? || e.JumpTo?
    ensures r.fs != s.fs ==> !(e.Scroll? || e.TypeBrushSize? || e.TypeEraserSize? || e.PickColor? ||
                               e.MousePress? || e.MouseMove? || e.ResizeTo?)
    ensures e.MouseRelease? ==> r == Release(s, e.released)
  {
    match e
    case ChooseDir(dir, listing) => Navigate(s, Navigation.SelectDirectory(s.nav, s.fs, dir, listing))
    case ClickNext => Navigate(s, Navigation.NextImage(s.nav))
    case ClickPrev => Navigate(s, Navigation.PrevImage(s.nav))
    case JumpTo(page) => Navigate(s, Navigation.PageJump(s.nav, page))
    case ClickRotate => Show(s, Annotation.Request(true, false, false, false))
    case ClickRotateImage => Show(s, Annotation.Request(false, true, false, false))
    case ClickRotateMask => Show(s, Annotation.Request(false, false, true, false))
    case ClickClear => Show(s, Annotation.Request(false, false, false, true))
    case Scroll(m, delta) => s.(tools := Wheel(s.tools, m, delta))
    case TypeBrushSize(size) => s.(tools := SetBrushSize(s.tools, size))
    case TypeEraserSize(size) => s.(tools := SetEraserSize(s.tools, size))
    case PickColor(c) => s.(tools := SetBrushColor(s.tools, c))
    case MousePress(b, at, m) => s.(canvas := Canvas.Press(s.canvas, b, at, m))
    case MouseMove(at, m) => s.(canvas := Canvas.Move(s.canvas, at, m))
    case ResizeTo(w, h) => s.(canvas := Canvas.Resize(s.canvas, w, h))
    case MouseRelease(b) => Release(s, b)
  }

  /** What the window keeps true between inputs. */
  ghost predicate Inv(s: Window)
  {
    && Navigation.Valid(s.nav)
    && s.buttons == Navigation.UpdateButtons(s.nav)
    && WellFormed(s.fs)
    && Canvas.SessionConsistent(s.canvas)
  }

  lemma StartSatisfiesInv(fs: FileSystem)
    requires WellFormed(fs)
    ensures Inv(Start(fs))
  {
    assert Sorting.Sorted(Navigation.Initial.files);
  }

  /** Every input the window can deliver keeps the invariant. */
  lemma HandleKeepsInv(s: Window, e: Input)
    requires Inv(s) && CanDeliver(s, e)
    ensures Inv(Handle(s, e))
  {
    match e {
      case ChooseDir(dir, listing) =>
        Navigation.ApplyPreservesValid(s.nav, Navigation.SelectDir(s.fs, dir, listing));
      case ClickNext =>
        Navigation.ApplyPreservesValid(s.nav, Navigation.Next);
      case ClickPrev =>
        Navigation.ApplyPreservesValid(s.nav, Navigation.Prev);
      case JumpTo(page) =>
        Navigation.ApplyPreservesValid(s.nav, Navigation.Jump(page));
      case _ =>
    }
  }

  ghost predicate Deliverable(s: Window, es: seq<Input>)
    decreases |es|
  {
    |es| == 0 || (CanDeliver(s, es[0]) && Deliverable(Handle(s, es[0]), es[1..]))
  }

  function HandleAll(s: Window, es: seq<Input>): Window
    requires Deliverable(s, es)
    decreases |es|
  {
    if |es| == 0 then s else HandleAll(Handle(s, es[0]), es[1..])
  }

  /** Along any run of deliverable inputs the invariant holds; in particular
      the index never leaves a non-empty list and the buttons always show
      whether each step stays inside it. */
  lemma {:induction false} HandleAllKeepsInv(s: Window, es: seq<Input>)
    requires Inv(s) && Deliverable(s, es)
    ensures Inv(HandleAll(s, es))
    decreases |es|
  {
    if |es| > 0 {
      HandleKeepsInv(s, es[0]);
      HandleAllKeepsInv(Handle(s, es[0]), es[1..]);
    }
  }

  /** Under the invariant the list lookup of show_label_img never fails, so
      the only exception left is a file blocking the mask directory. */
  lemma ShowNeverMissesIndex(s: Window, req: Annotation.Request)
    requires Inv(s) && |s.nav.files| > 0
    ensures Navigation.PyIndex(s.nav.files, s.nav.index) == Some(s.nav.files[s.nav.index])
    ensures Annotation.ShowLabelImg(s.fs, s.nav, req) == Annotation.ShowImage(s.fs, s.nav.files[s.nav.index], req)
  {
  }

  /** A release always writes the mask buffer back to the current mask file
      when it can, stroke or not. */
  lemma ReleaseSavesMask(s: Window, b: Canvas.MouseButton)
    requires Inv(s) && s.running && s.canvas.maskPath.Some?
    requires var p := s.canvas.maskPath.value; |p| > 0 && !IsDir(s.fs, p) && IsDir(s.fs, Parent(p))
    requires !s.canvas.pressed
    ensures var r := Handle(s, MouseRelease(b));
            Decode(r.fs, s.canvas.maskPath.value) == Some(MaskDims) && r.canvas == s.canvas
  {
  }
}

=== FILE: files.dfy ===
/**
 The filesystem the editor reads and writes, abstracted to a map from path to
 entry. A file records only what decoding it as a picture yields: its pixel
 size, or nothing when it does not decode (a null QPixmap).
 */
module Files {
  import opened Base
  import opened Paths

  datatype Entry = File(picture: Option<Dims>) | Dir

  type FileSystem = map<Path, Entry>

  /** The empty path stands for the root, which always exists as a directory. */
  predicate IsDir(fs: FileSystem, p: Path)
  {
    |p| == 0 || (p in fs && fs[p].Dir?)
  }

  predicate IsFile(fs: FileSystem, p: Path)
  {
    |p| > 0 && p in fs && fs[p].File?
  }

  /** What QPixmap(path) yields: the picture of a decodable file, else null. */
  function Decode(fs: FileSystem, p: Path): Option<Dims>
  {
    if IsFile(fs, p) then fs[p].picture else None
  }

  /** A tree: every entry hangs under a directory. */
  ghost predicate WellFormed(fs: FileSystem)
  {
    forall p :: p in fs ==> |p| > 0 && IsDir(fs, Parent(p))
  }

  /** Path.mkdir(parents=True, exist_ok=True): creates `p` and its missing
      ancestors, and fails when an existing non-directory is in the way. */
  function MakeDirs(fs: FileSystem, p: Path): (r: Option<FileSystem>)
    ensures r.Some? ==> IsDir(r.value, p)
    ensures r.Some? ==> forall q :: q in fs ==> q in r.value && r.value[q] == fs[q]
    ensures r.Some? ==> forall q :: q in r.value && q !in fs ==> r.value[q] == Dir && |q| <= |p| && q == p[..|q|]
    ensures r.None? ==> exists k :: 0 < k <= |p| && IsFile(fs, p[..k])
    decreases |p|
  {
    if IsDir(fs, p) then Some(fs)
    else if p in fs then
      assert p[..|p|] == p;
      None
    else
      match MakeDirs(fs, Parent(p))
      case None =>
        var k :| 0 < k <= |Parent(p)| && IsFile(fs, Parent(p)[..k]);
        assert Parent(p)[..k] == p[..k];
        None
      case Some(fs') =>
        assert forall q :: q in fs' && q !in fs ==> q == Parent(p)[..|q|] && q == p[..|q|];
        Some(fs'[p := Dir])
  }

  /** Creating directories keeps the tree well formed: each new directory
      hangs under its parent, which exists or is created first. */
  lemma {:induction false} MakeDirsKeepsTree(fs: FileSystem, p: Path)
    requires MakeDirs(fs, p).Some?
    ensures WellFormed(fs) ==> WellFormed(MakeDirs(fs, p).value)
    decreases |p|
  {
    if !IsDir(fs, p) && p !in fs {
      MakeDirsKeepsTree(fs, Parent(p));
    }
  }

  /** Under a well-formed tree the converse holds too: creation fails exactly
      when some existing prefix of the path is a file. */
  lemma {:induction false} MakeDirsFailsOnFile(fs: FileSystem, p: Path, k: nat)
    requires WellFormed(fs)
    requires 0 < k <= |p| && IsFile(fs, p[..k])
    ensures MakeDirs(fs, p).None?
    decreases |p|
  {
    if IsDir(fs, p) {
      DirAncestors(fs, p, k);
      assert false;
    } else if p !in fs {
      assert p[..k] in fs && p[..k] != p;
      assert k < |p|;
      assert Parent(p)[..k] == p[..k];
      MakeDirsFailsOnFile(fs, Parent(p), k);
    }
  }

  /** In a well-formed tree every prefix of a directory is a directory. */
  lemma {:induction false} DirAncestors(fs: FileSystem, p: Path, k: nat)
    requires WellFormed(fs)
    requires IsDir(fs, p) && k <= |p|
    ensures IsDir(fs, p[..k])
    decreases |p|
  {
    if k < |p| {
      assert Parent(p)[..k] == p[..k];
      DirAncestors(fs, Parent(p), k);
    } else {
      assert p[..k] == p;
    }
  }

  /** Removing a file, as os.remove does, keeps the tree well formed. */
  function RemoveFile(fs: FileSystem, p: Path): (r: FileSystem)
    requires IsFile(fs, p)
    ensures p !in r
    ensures forall q :: q != p ==> (q in r <==> q in fs) && (q in r ==> r[q] == fs[q])
    ensures WellFormed(fs) ==> WellFormed(r)
  {
    fs - {p}
  }

  /** Saving a picture to `p`, where no directory sits; the tree stays well
      formed when `p`'s directory exists. */
  function WriteFile(fs: FileSystem, p: Path, picture: Option<Dims>): (r: FileSystem)
    requires |p| > 0 && !IsDir(fs, p)
    ensures IsFile(r, p) && Decode(r, p) == picture
    ensures forall q :: q != p ==> (q in r <==> q in fs) && (q in r ==> r[q] == fs[q])
    ensures WellFormed(fs) && IsDir(fs, Parent(p)) ==> WellFormed(r)
  {
    fs[p := File(picture)]
  }
}

=== FILE: navigation.dfy ===
/**
 The navigation controller of the main window: the sorted list of image files
 of the chosen directory, the index of the image on show, the steps that move
 that index, and the buttons whose enabled state is derived from it.
 */
module Navigation {
  import opened Base
  import opened Paths
  import opened Sorting
  import opened Files

  /** all_img_file and all_img_file_index. */
  datatype Nav = Nav(files: seq<Path>, index: int)

  const Initial: Nav := Nav([], 0)

  /** A transition of the controller and whether it asks for the current image
      to be shown again (a call of show_label_img). */
  datatype Step = Step(nav: Nav, reload: bool)

  /** What the controller keeps true: the list is sorted and, when it is not
      empty, the index points into it. */
  ghost predicate Valid(nav: Nav)
  {
    && Sorted(nav.files)
    && (|nav.files| == 0 || 0 <= nav.index < |nav.files|)
  }

  /** Python's s[i] on a list: negative indices count from the end, anything
      else out of range raises IndexError (None). */
  function PyIndex<T>(s: seq<T>, i: int): (r: Option<T>)
    ensures r.Some? <==> -|s| <= i < |s|
    ensures 0 <= i < |s| ==> r == Some(s[i])
    ensures -|s| <= i < 0 ==> r == Some(s[|s| + i])
  {
    if 0 <= i < |s| then Some(s[i])
    else if -|s| <= i < 0 then Some(s[|s| + i])
    else None
  }

  predicate IsChild(dir: Path, p: Path)
  {
    |p| == |dir| + 1 && p[..|dir|] == dir
  }

  predicate IsImageFile(fs: FileSystem, p: Path)
  {
    IsFile(fs, p) && IsImageName(Name(p))
  }

  /** What Path(dir).iterdir() yields, in whatever order: every child once. */
  ghost predicate IsListing(fs: FileSystem, dir: Path, listing: seq<Path>)
  {
    && Distinct(listing)
    && forall p :: p in listing <==> p in fs && IsChild(dir, p)
  }

  /** The listing entries that are files with an image extension, in listing order. */
  function ImageFiles(fs: FileSystem, listing: seq<Path>): (r: seq<Path>)
    ensures forall p :: p in r <==> p in listing && IsImageFile(fs, p)
    ensures Distinct(listing) ==> Distinct(r)
  {
    if |listing| == 0 then []
    else
      var rest := ImageFiles(fs, listing[1..]);
      assert forall p :: p in listing <==> p == listing[0] || p in listing[1..];
      if IsImageFile(fs, listing[0]) then [listing[0]] + rest else rest
  }

  /** on_btn_select_dir: list the directory, keep the image files, sort them.
      A directory that cannot be listed, or holds no image file, changes nothing;
      otherwise the list is replaced and the first image is shown. */
  function SelectDirectory(nav: Nav, fs: FileSystem, dir: Path, listing: seq<Path>): (r: Step)
    requires IsDir(fs, dir) ==> IsListing(fs, dir, listing)
    ensures !r.reload ==> r.nav == nav
    ensures r.reload <==> IsDir(fs, dir) && exists p :: p in fs && IsChild(dir, p) && IsImageFile(fs, p)
    ensures r.reload ==> && r.nav.index == 0
                         && Sorted(r.nav.files)
                         && (forall p :: p in r.nav.files <==> p in fs && IsChild(dir, p) && IsImageFile(fs, p))
  {
    if !IsDir(fs, dir) then Step(nav, false)
    else
      var found := Sort(ImageFiles(fs, listing));
      FoundAreImageChildren(fs, dir, listing);
      if |found| == 0 then Step(nav, false)
      else
        assert found[0] in found;
        Step(Nav(found, 0), true)
  }

  lemma FoundAreImageChildren(fs: FileSystem, dir: Path, listing: seq<Path>)
    requires IsListing(fs, dir, listing)
    ensures forall p :: p in Sort(ImageFiles(fs, listing)) <==> p in fs && IsChild(dir, p) && IsImageFile(fs, p)
  {
    var found := Sort(ImageFiles(fs, listing));
    assert forall p :: p in found <==> p in multiset(found);
    assert forall p :: p in ImageFiles(fs, listing) <==> p in multiset(ImageFiles(fs, listing));
  }

  /** The order iterdir happens to produce does not matter. */
  lemma ListingOrderIrrelevant(nav: Nav, fs: FileSystem, dir: Path, l1: seq<Path>, l2: seq<Path>)
    requires IsDir(fs, dir) ==> IsListing(fs, dir, l1) && IsListing(fs, dir, l2)
    ensures SelectDirectory(nav, fs, dir, l1) == SelectDirectory(nav, fs, dir, l2)
  {
    var r1 := SelectDirectory(nav, fs, dir, l1);
    var r2 := SelectDirectory(nav, fs, dir, l2);
    if r1.reload {
      SortedDistinct(r1.nav.files);
      SortedDistinct(r2.nav.files);
      DistinctSameElements(r1.nav.files, r2.nav.files);
      SortedUnique(r1.nav.files, r2.nav.files);
    }
  }

  lemma DistinctSameElements(a: seq<Path>, b: seq<Path>)
    requires Distinct(a) && Distinct(b)
    requires forall p :: p in a <==> p in b
    ensures multiset(a) == multiset(b)
  {
    DistinctMultiset(a);
    DistinctMultiset(b);
    assert forall p :: multiset(a)[p] == multiset(b)[p] by {
      forall p
        ensures multiset(a)[p] == multiset(b)[p]
      {
        if p in a {
          assert p in multiset(a) && p in multiset(b);
        } else {
          assert p !in multiset(a) && p !in multiset(b);
        }
      }
    }
  }

  /** In a list without repeats every element occurs exactly once. */
  lemma {:induction false} DistinctMultiset(s: seq<Path>)
    requires Distinct(s)
    ensures forall p :: p in s ==> multiset(s)[p] == 1
  {
    if |s| > 0 {
      DistinctMultiset(s[1..]);
      assert s == [s[0]] + s[1..];
      assert s[0] !in s[1..];
      forall p | p in s
        ensures multiset(s)[p] == 1
      {
        assert multiset(s) == multiset{s[0]} + multiset(s[1..]);
        if p != s[0] {
          assert p in s[1..];
        }
      }
    }
  }

  /** on_btn_next_img: no bound check; the button is disabled at the end. */
  function NextImage(nav: Nav): (r: Step)
    ensures r.reload && r.nav.files == nav.files && r.nav.index == nav.index + 1
  {
    Step(nav.(index := nav.index + 1), true)
  }

  /** on_btn_prev_img: no bound check; the button is disabled at the start. */
  function PrevImage(nav: Nav): (r: Step)
    ensures r.reload && r.nav.files == nav.files && r.nav.index == nav.index - 1
  {
    Step(nav.(index := nav.index - 1), true)
  }

  /** on_page_jump: a one-based page number inside the list selects that image;
      any other number is ignored; the image is shown again either way. */
  function PageJump(nav: Nav, page: int): (r: Step)
    ensures r.reload && r.nav.files == nav.files
    ensures 1 <= page <= |nav.files| ==> r.nav.index == page - 1
    ensures !(1 <= page <= |nav.files|) ==> r.nav == nav
  {
    if 1 <= page <= |nav.files| then Step(nav.(index := page - 1), true)
    else Step(nav, true)
  }

  datatype Buttons = Buttons(prev: bool, next: bool, rotate: bool, rotateImage: bool, rotateMask: bool, clear: bool)

  const AllDisabled: Buttons := Buttons(false, false, false, false, false, false)

  /** update_btn_status: everything starts disabled; an empty list leaves it so,
      and so does an index the list lookup rejects (the exception is logged). */
  function UpdateButtons(nav: Nav): (b: Buttons)
    ensures |nav.files| == 0 || PyIndex(nav.files, nav.index).None? ==> b == AllDisabled
    ensures b.rotate == b.rotateImage == b.rotateMask == b.clear
    ensures b.rotate <==> |nav.files| > 0 && PyIndex(nav.files, nav.index).Some?
    ensures b.prev <==> b.rotate && nav.index != 0
    ensures b.next <==> b.rotate && nav.index != |nav.files| - 1
  {
    if |nav.files| == 0 || PyIndex(nav.files, nav.index).None? then AllDisabled
    else Buttons(nav.index != 0, nav.index != |nav.files| - 1, true, true, true, true)
  }

  /** On a valid state each arrow button is enabled exactly when its step lands
      inside the list, and the file buttons exactly when the list is not empty. */
  lemma ButtonsMatchBounds(nav: Nav)
    requires Valid(nav)
    ensures var b := UpdateButtons(nav);
            && (b.next <==> 0 <= nav.index + 1 < |nav.files|)
            && (b.prev <==> 0 <= nav.index - 1 < |nav.files|)
            && (b.rotate <==> |nav.files| > 0) && b.rotate == b.rotateImage == b.rotateMask == b.clear
  {
  }

  /** An empty list disables every button, whatever the index. */
  lemma EmptyListDisablesAll(nav: Nav)
    requires |nav.files| == 0
    ensures UpdateButtons(nav) == AllDisabled
  {
  }

  /** The controller's events, as the window delivers them. */
  datatype Event =
    | SelectDir(fs: FileSystem, dir: Path, listing: seq<Path>)
    | Next
    | Prev
    | Jump(page: int)

  /** Arrow buttons can only be clicked while enabled; a directory scan always
      yields a genuine listing. */
  ghost predicate Enabled(nav: Nav, e: Event)
  {
    match e
    case SelectDir(fs, dir, listing) => IsDir(fs, dir) ==> IsListing(fs, dir, listing)
    case Next => UpdateButtons(nav).next
    case Prev => UpdateButtons(nav).prev
    case Jump(_) => true
  }

  function Apply(nav: Nav, e: Event): Step
    requires Enabled(nav, e)
  {
    match e
    case SelectDir(fs, dir, listing) => SelectDirectory(nav, fs, dir, listing)
    case Next => NextImage(nav)
    case Prev => PrevImage(nav)
    case Jump(page) => PageJump(nav, page)
  }

  /** Every event that can be delivered keeps the controller valid. */
  lemma ApplyPreservesValid(nav: Nav, e: Event)
    requires Valid(nav) && Enabled(nav, e)
    ensures Valid(Apply(nav, e).nav)
  {
    match e
    case SelectDir(fs, dir, listing) =>
    case Next => ButtonsMatchBounds(nav);
    case Prev => ButtonsMatchBounds(nav);
    case Jump(page) =>
  }

  /** Page numbers 1 and count reach the first and last image; 0 and count + 1
      leave the state as it was. */
  lemma JumpBoundaries(nav: Nav)
    requires |nav.files| > 0
    ensures PageJump(nav, 1).nav.index == 0
    ensures PageJump(nav, |nav.files|).nav.index == |nav.files| - 1
    ensures PageJump(nav, 0).nav == nav
    ensures PageJump(nav, |nav.files| + 1).nav == nav
  {
  }

  ghost predicate EnabledRun(nav: Nav, es: seq<Event>)
    decreases |es|
  {
    |es| == 0 || (Enabled(nav, es[0]) && EnabledRun(Apply(nav, es[0]).nav, es[1..]))
  }

  function Run(nav: Nav, es: seq<Event>): Nav
    requires EnabledRun(nav, es)
    decreases |es|
  {
    if |es| == 0 then nav else Run(Apply(nav, es[0]).nav, es[1..])
  }

  /** Clicking only enabled buttons never moves the index out of the list:
      from the initial state, 0 <= index < count holds whenever count > 0. */
  lemma {:induction false} RunPreservesValid(nav: Nav, es: seq<Event>)
    requires Valid(nav) && EnabledRun(nav, es)
    ensures Valid(Run(nav, es))
    decreases |es|
  {
    if |es| > 0 {
      ApplyPreservesValid(nav, es[0]);
      RunPreservesValid(Apply(nav, es[0]).nav, es[1..]);
    }
  }
}

=== FILE: ordering.dfy ===
/**
 Lexicographic order on sequences. Python compares strings code point by code
 point and lists element by element with this order, so it is both the order
 of file names and the order `sorted` puts paths in.
 */
module Ordering {

  ghost predicate StrictTotal<T(!new)>(lt: (T, T) -> bool)
  {
    && (forall x :: !lt(x, x))
    && (forall x, y, z :: lt(x, y) && lt(y, z) ==> lt(x, z))
    && (forall x, y :: x != y ==> lt(x, y) || lt(y, x))
  }

  /** `a` comes strictly before `b`: it is a proper prefix of `b`, or the first
      position where they differ holds a smaller element. */
  predicate LexLess<T(==)>(a: seq<T>, b: seq<T>, lt: (T, T) -> bool)
    decreases |a|
  {
    if |a| == 0 then |b| > 0
    else |b| > 0 && (lt(a[0], b[0]) || (a[0] == b[0] && LexLess(a[1..], b[1..], lt)))
  }

  lemma {:induction false} LexIrreflexive<T(!new)>(a: seq<T>, lt: (T, T) -> bool)
    requires StrictTotal(lt)
    ensures !LexLess(a, a, lt)
    decreases |a|
  {
    if |a| > 0 {
      LexIrreflexive(a[1..], lt);
    }
  }

  lemma {:induction false} LexTransitive<T(!new)>(a: seq<T>, b: seq<T>, c: seq<T>, lt: (T, T) -> bool)
    requires StrictTotal(lt)
    requires LexLess(a, b, lt) && LexLess(b, c, lt)
    ensures LexLess(a, c, lt)
    decreases |a|
  {
    if |a| > 0 && a[0] == b[0] && b[0] == c[0] {
      LexTransitive(a[1..], b[1..], c[1..], lt);
    }
  }

  lemma {:induction false} LexConnected<T(!new)>(a: seq<T>, b: seq<T>, lt: (T, T) -> bool)
    requires StrictTotal(lt)
    requires a != b
    ensures LexLess(a, b, lt) || LexLess(b, a, lt)
    decreases |a|
  {
    if |a| > 0 && |b| > 0 && a[0] == b[0] {
      assert a == [a[0]] + a[1..] && b == [b[0]] + b[1..];
      LexConnected(a[1..], b[1..], lt);
    }
  }

  /** The lexicographic extension of a strict total order is a strict total order. */
  lemma LexStrictTotal<T(!new)>(lt: (T, T) -> bool)
    requires StrictTotal(lt)
    ensures forall a: seq<T> :: !LexLess(a, a, lt)
    ensures forall a: seq<T>, b: seq<T>, c: seq<T> :: LexLess(a, b, lt) && LexLess(b, c, lt) ==> LexLess(a, c, lt)
    ensures forall a: seq<T>, b: seq<T> :: a != b ==> LexLess(a, b, lt) || LexLess(b, a, lt)
  {
    forall a: seq<T>
      ensures !LexLess(a, a, lt)
    {
      LexIrreflexive(a, lt);
    }
    forall a: seq<T>, b: seq<T>, c: seq<T> | LexLess(a, b, lt) && LexLess(b, c, lt)
      ensures LexLess(a, c, lt)
    {
      LexTransitive(a, b, c, lt);
    }
    forall a: seq<T>, b: seq<T> | a != b
      ensures LexLess(a, b, lt) || LexLess(b, a, lt)
    {
      LexConnected(a, b, lt);
    }
  }
}

=== FILE: paths.dfy ===
/**
 Paths as the editor sees them through Python's pathlib: a path is its list of
 components, `name` is the last one, `parent` drops it, and `suffix`/`stem`
 split the name at its last dot the way PurePath does.
 */
module Paths {
  import opened Ordering

  type Path = seq<string>

  /** PurePath.name; the empty path has the empty name. */
  function Name(p: Path): string
  {
    if |p| == 0 then "" else p[|p| - 1]
  }

  /** PurePath.parent; the empty path is its own parent. */
  function Parent(p: Path): Path
  {
    if |p| == 0 then [] else p[..|p| - 1]
  }

  /** Index of the last '.' in `s`, or -1 when there is none (str.rfind). */
  function LastDot(s: string): (i: int)
    ensures -1 <= i < |s|
    ensures 0 <= i ==> s[i] == '.'
    ensures forall k :: i < k < |s| ==> s[k] != '.'
  {
    if |s| == 0 then -1
    else if s[|s| - 1] == '.' then |s| - 1
    else LastDot(s[..|s| - 1])
  }

  /** A name has a suffix when its last dot is neither its first nor its last
      character: ".png" and "a." have none. */
  predicate HasSuffix(name: string)
  {
    0 < LastDot(name) < |name| - 1
  }

  /** PurePath.suffix: from the last dot to the end, or "" when there is none. */
  function Suffix(name: string): string
  {
    if HasSuffix(name) then name[LastDot(name)..] else ""
  }

  /** PurePath.stem: the name without its suffix. */
  function Stem(name: string): string
  {
    if HasSuffix(name) then name[..LastDot(name)] else name
  }

  /** Stem and suffix split a name: the suffix is empty or one dot followed by
      at least one dot-free character, and the stem is empty only for the empty name. */
  lemma StemSuffixSplit(name: string)
    ensures Stem(name) + Suffix(name) == name
    ensures Suffix(name) == "" || (|Suffix(name)| >= 2 && Suffix(name)[0] == '.'
                                   && forall k :: 1 <= k < |Suffix(name)| ==> Suffix(name)[k] != '.')
    ensures |Stem(name)| == 0 <==> |name| == 0
  {
    if HasSuffix(name) {
      var i := LastDot(name);
      assert name == name[..i] + name[i..];
      forall k | 1 <= k < |Suffix(name)|
        ensures Suffix(name)[k] != '.'
      {
        assert Suffix(name)[k] == name[i + k];
      }
    }
  }

  /** A name made of a non-empty stem and a dotted extension without further
      dots splits back into exactly that stem and extension. */
  lemma {:induction false} StemOfJoined(stem: string, ext: string)
    requires |stem| > 0
    requires |ext| >= 2 && ext[0] == '.'
    requires forall k :: 1 <= k < |ext| ==> ext[k] != '.'
    ensures Stem(stem + ext) == stem
    ensures Suffix(stem + ext) == ext
  {
    var s := stem + ext;
    var i := LastDot(s);
    assert s[|stem|] == '.';
    forall k | |stem| < k < |s|
      ensures s[k] != '.'
    {
      assert s[k] == ext[k - |stem|];
    }
    assert i == |stem|;
    assert s[..i] == stem;
    assert s[i..] == ext;
  }

  /** str.upper restricted to ASCII letters. */
  function UpperChar(c: char): char
  {
    if 'a' <= c <= 'z' then (c as int - 32) as char else c
  }

  function Upper(s: string): string
  {
    seq(|s|, i requires 0 <= i < |s| => UpperChar(s[i]))
  }

  /** The extensions the directory scan accepts, compared upper-cased. */
  const ImageSuffixes: seq<string> := [".JPG", ".JPEG", ".BMP", ".PNG"]

  predicate IsImageName(name: string)
  {
    Upper(Suffix(name)) in ImageSuffixes
  }

  function CharLess(a: char, b: char): bool
  {
    a < b
  }

  /** Python's `<` on str: code-point lexicographic order. */
  predicate StrLess(a: string, b: string)
  {
    LexLess(a, b, CharLess)
  }

  /** Python's `<` on PosixPath: lexicographic order on the component lists. */
  predicate PathLess(a: Path, b: Path)
  {
    LexLess(a, b, StrLess)
  }

  lemma StrLessStrictTotal()
    ensures StrictTotal(StrLess)
  {
    LexStrictTotal(CharLess);
  }

  lemma PathLessStrictTotal()
    ensures StrictTotal(PathLess)
    ensures forall a, b, c :: PathLess(a, b) && PathLess(b, c) ==> PathLess(a, c)
    ensures forall a :: !PathLess(a, a)
    ensures forall a, b :: a != b ==> PathLess(a, b) || PathLess(b, a)
  {
    StrLessStrictTotal();
    LexStrictTotal(StrLess);
  }
}

=== FILE: sorting.dfy ===
/**
 `sorted` over a list of distinct paths: insertion sort into strictly
 increasing PathLess order, and the fact that such an order is unique.
 */
module Sorting {
  import Ordering
  import opened Paths

  ghost predicate Sorted(s: seq<Path>)
  {
    forall i, j :: 0 <= i < j < |s| ==> PathLess(s[i], s[j])
  }

  predicate Distinct<T(==)>(s: seq<T>)
  {
    forall i, j :: 0 <= i < j < |s| ==> s[i] != s[j]
  }

  /** Places `x` in front of the first element that does not precede it. */
  function Insert(x: Path, s: seq<Path>): (r: seq<Path>)
    requires Sorted(s) && x !in s
    ensures Sorted(r)
    ensures multiset(r) == multiset(s) + multiset{x}
  {
    if |s| == 0 then [x]
    else if PathLess(x, s[0]) then
      forall k | 0 < k < |s|
        ensures PathLess(x, s[k])
      {
        PathLessTransitive(x, s[0], s[k]);
      }
      SortedCons(x, s);
      [x] + s
    else
      var rest := Insert(x, s[1..]);
      PathLessConnected(x, s[0]);
      forall k | 0 <= k < |rest|
        ensures PathLess(s[0], rest[k])
      {
        assert rest[k] in multiset(s[1..]) + multiset{x};
        if rest[k] != x {
          assert rest[k] in s[1..];
        }
      }
      SortedCons(s[0], rest);
      assert s == [s[0]] + s[1..];
      [s[0]] + rest
  }

  /** A head below every element of a sorted tail gives a sorted list. */
  lemma SortedCons(h: Path, t: seq<Path>)
    requires Sorted(t)
    requires forall k :: 0 <= k < |t| ==> PathLess(h, t[k])
    ensures Sorted([h] + t)
  {
    var r := [h] + t;
    forall i, j | 0 <= i < j < |r|
      ensures PathLess(r[i], r[j])
    {
      if i > 0 {
        assert r[i] == t[i - 1] && r[j] == t[j - 1];
      } else {
        assert r[j] == t[j - 1];
      }
    }
  }

  lemma PathLessTransitive(a: Path, b: Path, c: Path)
    requires PathLess(a, b) && PathLess(b, c)
    ensures PathLess(a, c)
  {
    PathLessStrictTotal();
  }

  lemma PathLessConnected(a: Path, b: Path)
    requires a != b
    ensures PathLess(a, b) || PathLess(b, a)
  {
    PathLessStrictTotal();
  }

  /** The distinct paths of `xs` in increasing order. */
  function Sort(xs: seq<Path>): (r: seq<Path>)
    requires Distinct(xs)
    ensures Sorted(r)
    ensures multiset(r) == multiset(xs)
  {
    if |xs| == 0 then []
    else
      var rest := Sort(xs[1..]);
      assert xs == [xs[0]] + xs[1..];
      assert xs[0] !in multiset(xs[1..]);
      Insert(xs[0], rest)
  }

  /** The first element of a sorted list is its least one, so two sorted lists
      with the same elements start alike. */
  lemma SortedHeadsAgree(a: seq<Path>, b: seq<Path>)
    requires Sorted(a) && Sorted(b)
    requires multiset(a) == multiset(b)
    requires |a| > 0
    ensures |b| > 0 && a[0] == b[0]
  {
    assert a[0] in multiset(b);
    assert b[0] in multiset(a);
    if a[0] != b[0] {
      var i :| 0 <= i < |b| && b[i] == a[0];
      var j :| 0 <= j < |a| && a[j] == b[0];
      assert PathLess(b[0], a[0]) && PathLess(a[0], b[0]);
      Ordering.LexTransitive(a[0], b[0], a[0], StrLess) by {
        StrLessStrictTotal();
      }
      Ordering.LexIrreflexive(a[0], StrLess) by {
        StrLessStrictTotal();
      }
      assert false;
    }
  }

  /** Two sorted lists holding the same paths are the same list, so the result
      of sorting does not depend on the order the paths were produced in. */
  lemma {:induction false} SortedUnique(a: seq<Path>, b: seq<Path>)
    requires Sorted(a) && Sorted(b)
    requires multiset(a) == multiset(b)
    ensures a == b
    decreases |a|
  {
    if |a| > 0 {
      SortedHeadsAgree(a, b);
      assert a == [a[0]] + a[1..] && b == [b[0]] + b[1..];
      assert multiset(a[1..]) == multiset(a) - multiset{a[0]};
      assert multiset(b[1..]) == multiset(b) - multiset{b[0]};
      SortedUnique(a[1..], b[1..]);
    } else {
      assert |b| == |multiset(b)| == 0;
    }
  }

  lemma SortedDistinct(s: seq<Path>)
    requires Sorted(s)
    ensures Distinct(s)
  {
    PathLessStrictTotal();
  }
}

=== FILE: tools.dfy ===
/**
 Brush and eraser configuration: colours, stamp diameters, their bounds, and
 the wheel gesture that nudges a diameter by one.
 */
module Tools {
  import opened Base

  const BrushMin: int := 1
  const BrushMax: int := 50
  const BrushDefault: int := 5
  const EraserMin: int := 5
  const EraserMax: int := 50
  const EraserDefault: int := 50

  const DefaultBrushColor: Color := Color(255, 255, 0)
  const EraserColor: Color := Color(0, 0, 0)

  /** The tool configuration the canvas reads on every paint. The sizes are the
      values last typed into (or set on) the two size fields. */
  datatype ToolState = ToolState(brushColor: Color, eraserColor: Color, brushSize: int, eraserSize: int)

  const Initial: ToolState := ToolState(DefaultBrushColor, EraserColor, BrushDefault, EraserDefault)

  predicate InRange(t: ToolState)
  {
    BrushMin <= t.brushSize <= BrushMax && EraserMin <= t.eraserSize <= EraserMax
  }

  /** Keyboard modifiers held during an event. */
  datatype Modifiers = Modifiers(shift: bool, ctrl: bool, alt: bool, meta: bool)

  /** keyboardModifiers() == ControlModifier: Ctrl and nothing else. */
  predicate OnlyCtrl(m: Modifiers)
  {
    m.ctrl && !m.shift && !m.alt && !m.meta
  }

  /** keyboardModifiers() == AltModifier: Alt and nothing else. */
  predicate OnlyAlt(m: Modifiers)
  {
    m.alt && !m.shift && !m.ctrl && !m.meta
  }

  /** One wheel notch changes a size by one step in the wheel's direction and the
      change is kept only when it stays within [lo, hi]. */
  function Nudge(size: int, delta: int, lo: int, hi: int): (r: int)
    ensures lo <= size <= hi ==> lo <= r <= hi
    ensures -1 <= r - size <= 1
    ensures r != size <==> delta != 0 && lo <= size + (if delta > 0 then 1 else -1) <= hi
    ensures r > size ==> delta > 0
    ensures r < size ==> delta < 0
  {
    var stepped := if delta > 0 then size + 1 else if delta < 0 then size - 1 else size;
    if lo <= stepped <= hi then stepped else size
  }

  /** wheelEvent: Ctrl alone adjusts the brush, Alt alone the eraser, any other
      combination does nothing. */
  function Wheel(t: ToolState, m: Modifiers, delta: int): (r: ToolState)
    ensures r.brushColor == t.brushColor && r.eraserColor == t.eraserColor
    ensures OnlyCtrl(m) ==> r.brushSize == Nudge(t.brushSize, delta, BrushMin, BrushMax)
    ensures OnlyAlt(m) ==> r.eraserSize == Nudge(t.eraserSize, delta, EraserMin, EraserMax)
    ensures !OnlyCtrl(m) ==> r.brushSize == t.brushSize
    ensures !OnlyAlt(m) ==> r.eraserSize == t.eraserSize
    ensures InRange(t) ==> InRange(r)
  {
    if OnlyCtrl(m) then t.(brushSize := Nudge(t.brushSize, delta, BrushMin, BrushMax))
    else if OnlyAlt(m) then t.(eraserSize := Nudge(t.eraserSize, delta, EraserMin, EraserMax))
    else t
  }

  /** A run of wheel notches starting in range stays in range. */
  lemma {:induction false} WheelsKeepRange(t: ToolState, notches: seq<(Modifiers, int)>)
    requires InRange(t)
    ensures InRange(Wheels(t, notches))
    decreases |notches|
  {
    if |notches| > 0 {
      WheelsKeepRange(Wheel(t, notches[0].0, notches[0].1), notches[1..]);
    }
  }

  function Wheels(t: ToolState, notches: seq<(Modifiers, int)>): ToolState
    decreases |notches|
  {
    if |notches| == 0 then t else Wheels(Wheel(t, notches[0].0, notches[0].1), notches[1..])
  }

  /** Scrolling up then down by one notch at an interior size is undone. */
  lemma NudgeUndone(size: int, lo: int, hi: int)
    requires lo <= size < hi
    ensures Nudge(Nudge(size, 1, lo, hi), -1, lo, hi) == size
  {
  }

  /** update_brush_pixle_size: records the size (the cursor glyph is not modelled).
      The size comes from the text field, whose validator still lets
      out-of-range intermediate text through, so no bound is imposed here and
      the range holds afterwards exactly when the typed size is within it. */
  function SetBrushSize(t: ToolState, size: int): (r: ToolState)
    ensures r.brushSize == size
    ensures r.brushColor == t.brushColor && r.eraserColor == t.eraserColor && r.eraserSize == t.eraserSize
    ensures InRange(t) ==> (InRange(r) <==> BrushMin <= size <= BrushMax)
  {
    t.(brushSize := size)
  }

  /** update_eraser_pixle_size: records the size. */
  function SetEraserSize(t: ToolState, size: int): (r: ToolState)
    ensures r.eraserSize == size
    ensures r.brushColor == t.brushColor && r.eraserColor == t.eraserColor && r.brushSize == t.brushSize
    ensures InRange(t) ==> (InRange(r) <==> EraserMin <= size <= EraserMax)
  {
    t.(eraserSize := size)
  }

  /** update_brush_color: records the colour; sizes and the eraser colour stay. */
  function SetBrushColor(t: ToolState, c: Color): (r: ToolState)
    ensures r.brushColor == c
    ensures r.eraserColor == t.eraserColor && r.brushSize == t.brushSize && r.eraserSize == t.eraserSize
  {
    t.(brushColor := c)
  }
}
